=== FILE: README.md ===
# XLIFF export command, modelled in Dafny

This project models the core of the `xliff:export` console command of the TYPO3
extension `ayacoo/xliff`: `ExportCommand::execute` and
`ExportCommand::buildExportService`. The command finds the XLIFF translation
files of an extension, reads the language attributes and `<trans-unit>`
elements of each file, and gathers them into one of two structures:

- single-file mode builds a table `unit id -> language -> text`;
- per-file mode maps each file's real path to its list of units.

It then builds a CSV or xlsx writer for that structure and saves it.

The modules follow the command's structure:

| file | module | contents |
|---|---|---|
| `Wrappers.dfy` | `Wrappers` | `Option` (PHP's null) and `Result` |
| `Php.dfy` | `Php` | the PHP coercions the command relies on: `empty()` on strings (`""` and `"0"` are empty), the `(bool)` cast of an option, `(string)` / `?? ''` of a missing value |
| `OrderedMap.dfy` | `OrderedMap` | an insertion-ordered map: a key sequence plus a map, the shape of a PHP array used as a dictionary; last-write-wins and first-seen-order theorems for a sequence of writes |
| `Xliff.dfy` | `Xliff` | the records read from one file (`TransUnit`, `Document`, `SourceFile`, `ParsedFile`); which language a file is filed under and which text of a unit is stored |
| `Aggregation.dfy` | `Aggregation` | the loop body: one cell `table[id][language] := value` per unit, the fold over all cells, and the per-file map |
| `ExportCommand.dfy` | `ExportCommand` | search folder and pattern, writer choice, fail-fast loading, `Execute` (the whole run as a function) and `Run` (the same run written as the source's nested loops, proved equal to `Execute`) |

Order is stated against an independent reference. `FirstSeenOrder(keys, s)`
says that `keys` lists each element of the stream `s` once, ordered by the
index of its first occurrence in `s`. `FirstSeenOrderUnique` proves that this
pins `keys` down. Last-write-wins is stated with `IsLastCell` / `IsLastWrite`:
an index is a last write when no later write has the same key.

## Model

| member | source | states |
|---|---|---|
| `Php.BoolCast` | Classes/Command/ExportCommand.php:97 | `(bool)` of the singleFileExport option is true exactly for boolean true and for strings other than `""` and `"0"` |
| `Php.Text` | Classes/Command/ExportCommand.php:135-138 | `(string)` of a missing XML child or attribute, and `?? ''` (also at lines 95 and 120-121), give `""`; a present value is kept unchanged |
| `ExportCommand.SearchTarget` | Classes/Command/ExportCommand.php:99-105 | with an empty file option (null, `""` or `"0"`), the pattern is `*.xlf` in `<extensionsPath>/<extension>/Resources/Private/Language`; otherwise the pattern is the file option itself and the folder gets `/` and the path option (null read as `""`) appended |
| `ExportCommand.SearchFolderHasLanguagePrefix` | Classes/Command/ExportCommand.php:99-105 | as a string, the searched folder always starts with the extension's language folder (a path such as `../..` can still lead outside it on disk); without a file option the path option has no effect |
| `Xliff.Resolve` | Classes/Command/ExportCommand.php:119-130 | a file is a translation iff its `target-language` is non-empty in PHP's sense; a translation is filed under its target language, any other file under its `source-language`; a missing attribute reads as `""` |
| `Xliff.ResolvedLanguage` | Classes/Command/ExportCommand.php:125-130 | a translation's language is never empty, and a file filed under a language other than its source language is a translation |
| `Xliff.ZeroTargetLanguageIsIgnored` | Classes/Command/ExportCommand.php:127-130 | `target-language="0"` does not make a translation: the file is filed under its source language |
| `Xliff.UnitValue` | Classes/Command/ExportCommand.php:136-139 | the stored text is the `<target>` of a translation and the `<source>` otherwise; a missing element gives `""` |
| `Aggregation.FileCells` | Classes/Command/ExportCommand.php:133-141 | a file writes exactly one cell per unit, in document order: id = `(string)` of the id attribute, language = the file's language, value = `UnitValue`; no unit is dropped |
| `Aggregation.Upsert` | Classes/Command/ExportCommand.php:140 | after `table[id][language] = value`, that entry holds `value` |
| `Aggregation.UpsertKeepsOthers` | Classes/Command/ExportCommand.php:140 | a write changes no other (id, language) entry: the other languages of the same id and all other ids keep their text |
| `Aggregation.UpsertOrder` | Classes/Command/ExportCommand.php:140 | a new id is appended after the known ids and a new language after the id's known languages; existing ones keep their positions; rows of other ids are untouched |
| `Aggregation.UpsertKeepsWellFormed` | Classes/Command/ExportCommand.php:140 | a write keeps every id, and every language of every row, listed exactly once |
| `Aggregation.FillWellFormed` | Classes/Command/ExportCommand.php:111-141 | the single-file table built from any cells lists each id and each language of a row exactly once |
| `Aggregation.FillLastWriteWins` | Classes/Command/ExportCommand.php:112-141 | the text stored for an (id, language) is the value of the last cell written for it, across files and units (last write wins) |
| `Aggregation.FillUnset` | Classes/Command/ExportCommand.php:112-141 | an (id, language) that no cell writes is absent from the table |
| `Aggregation.FillRowOrder` | Classes/Command/ExportCommand.php:112-141 | the table's ids are the ids of all cells, each once, in first-seen order |
| `Aggregation.FillColumnOrder` | Classes/Command/ExportCommand.php:112-141 | the languages of each id's row are the languages written for that id, each once, in first-seen order; a later file's language is appended |
| `Aggregation.CellPosition` | Classes/Command/ExportCommand.php:112-141 | unit `k` of file `i` is written at position (number of cells of the files before `i`) + `k` of the cell stream, as the cell its id, its file's language and its text give |
| `Aggregation.CellSource` | Classes/Command/ExportCommand.php:112-141 | conversely, every position of the cell stream is that of some unit `k` of some file `i`: the stream holds the units' cells and nothing else |
| `Aggregation.LastUnitIsLastCell` | Classes/Command/ExportCommand.php:112-141 | a unit that no unit processed after it (a later unit of its file, or any unit of a later file) matches in id and language is the last write of its (id, language) in the cell stream |
| `Aggregation.FileLastWriteWins` | Classes/Command/ExportCommand.php:112-141 | last write wins across files and units: such a last unit's text is what the single-file table holds under its id and its file's language |
| `Aggregation.FileUnset` | Classes/Command/ExportCommand.php:112-141 | an (id, language) that no unit of any file writes is absent from the single-file table |
| `Aggregation.SingleFileRows` | Classes/Command/ExportCommand.php:112-141 | an id is a row of the single-file table iff some unit of some processed file has that id; rows are in first-seen order |
| `Aggregation.MissingTargetKeepsRow` | Classes/Command/ExportCommand.php:136-140 | a unit of a translation without `<target>` still gets its row, with `""` under the target language |
| `Aggregation.TwoLanguagesOneRow` | Classes/Command/ExportCommand.php:140 | two writes to one id under different languages give one row whose columns are in write order, both texts kept |
| `Aggregation.MergedTranslationExample` | Classes/Command/ExportCommand.php:119-141 | an English source file and its German translation with unit `greeting` merge into the row `greeting` with columns `en` (`Hello`) then `de` (`Hallo`) |
| `Aggregation.PerFileLastWriteWins` | Classes/Command/ExportCommand.php:142-143 | in per-file mode a path maps to the unit list of the last file with that path, stored unchanged, with no units of other files merged in |
| `Aggregation.PerFileUnset` | Classes/Command/ExportCommand.php:142-143 | a path that no processed file has is absent from the per-file map |
| `Aggregation.PerFileOrder` | Classes/Command/ExportCommand.php:142-143 | the per-file map lists the paths once each, in first-seen order |
| `Aggregation.PerFileValid` | Classes/Command/ExportCommand.php:142-143 | every path of the per-file map is listed exactly once |
| `OrderedMap.Put` | Classes/Command/ExportCommand.php:140 | a PHP array write sets the key's value, leaves every other key's value alone, and appends the key only when it is new |
| `OrderedMap.PutAllKeepsPositions` | Classes/Command/ExportCommand.php:143 | keys already present keep their positions whatever is written after them |
| `ExportCommand.SelectWriter` | Classes/Command/ExportCommand.php:166-173 | the format string `"xlsx"` selects the xlsx writer; every other string selects CSV |
| `ExportCommand.KeywordSelectsWriter` | Classes/Command/ExportCommand.php:166-173 | each writer is selected by its own keyword, and the option's default `csv` selects CSV |
| `ExportCommand.UnhookedWriterIsConfigured` | Classes/Command/ExportCommand.php:161-179 | a null format, as `execute` passes it at line 109, yields no writer (the `string $format` parameter raises a TypeError); when the event leaves the writer alone, the writer carries the extension and mode `execute` passes, and it is xlsx exactly for `"xlsx"` |
| `ExportCommand.ParseAll` | Classes/Command/ExportCommand.php:112-123 | files are loaded in discovery order; loading succeeds iff every file loads, and it then keeps each file's path and document in order; otherwise it reports the first file that does not load |
| `ExportCommand.ParseAllStopsAtFirstFailure` | Classes/Command/ExportCommand.php:112-119 | the run dies on the first discovered file whose content does not load |
| `ExportCommand.Execute` | Classes/Command/ExportCommand.php:89-153 | the run dies with a missing-folder error iff the search folder does not exist (reporting that folder); an existing folder with no discovered file: nothing is built or saved and the exit code is SUCCESS; files found and a null format: the run dies with a TypeError before any file is read; otherwise the run aborts iff some file does not load, and then reports the first such file in discovery order; if not, one export is saved, the exit code is SUCCESS, the writer is the hook applied to the writer of the selected format configured with the extension and mode, and the items are `SingleFileTable` of the loaded files in single-file mode and `PerFileTable` of them otherwise |
| `ExportCommand.WriteUnits` | Classes/Command/ExportCommand.php:133-141 | the inner loop over one file's units leaves the table that writing that file's cells, in document order, into the given table gives |
| `Aggregation.SingleFileStep` | Classes/Command/ExportCommand.php:112-141 | in single-file mode one more file means writing its cells, in order, into the table the earlier files left |
| `Aggregation.FillThenFillFrom` | Classes/Command/ExportCommand.php:112-141 | writing two runs of cells one after the other into a fresh table equals writing the second run into the table the first leaves |
| `ExportCommand.PerFileStep` | Classes/Command/ExportCommand.php:143 | one more file in per-file mode is one more `items[realPath] = units` write |
| `ExportCommand.Run` | Classes/Command/ExportCommand.php:89-153 | the loop as written (the missing-folder and empty-result exits, the format type check, one pass over the files, a nested pass over units in single-file mode, return on the first file that does not load) yields exactly `Execute`'s outcome |

## Left out

- Directory scanning by Symfony `Finder` is not modelled. The `finder` parameter stands for it: it maps the search (folder, pattern) to None when the folder does not exist (Finder's `in()` then throws, as documented for Finder) and otherwise to the files found, in enumeration order. Finder searches sub-directories as well, reads the name pattern as a glob or a regular expression, and its order depends on the filesystem. This model takes whatever the parameter returns.
- `Environment::getExtensionsPath()` is host-framework path resolution. It becomes the parameter `extensionsPath`.
- `file_get_contents` and `simplexml_load_string` (file I/O and XML parsing) are not modelled. A file arrives as a `SourceFile` whose document is None when its content does not load. In PHP the run then dies with an uncaught error, which the model records as `Aborted(path)`.
- `XliffService::getTransUnitElements` is not part of this model. Its result is taken to be the `units` sequence of a `Document`, in document order.
- XML text details are not modelled: CDATA merging (`LIBXML_NOCDATA`), and the fact that `(string)$unit->source` reads only the first such child. `TransUnit` holds the resulting strings directly.
- The writers are not modelled. These are `ExportServiceFactory::createCsvExport` / `createXlsxExport`, `setXliffItems` and `save` (serialisation to disk). An `Export` records which writer is saved with which items. Write errors are not modelled.
- The factory's `setExtensionName` / `setSingleFileExport` calls are modelled as fields of the `Writer` record, not as mutable factory state.
- `ModifyExportServiceEvent` is an extension hook. It becomes the parameter `hook: Writer -> Writer`.
- The constructor accepts a null event dispatcher, with which `buildExportService` would fail on the dispatch call. The model always has a hook, as the framework's dependency injection always supplies a dispatcher.
- Execute: in the source, `buildExportService` runs, and its event fires, before a file that does not load ends the run. The model's `Aborted` outcome does not record that event.
- `configure()` (the option declarations), `SymfonyStyle` and the success message are console glue. Only the option values that `execute` receives are modelled, as `Options`.
- PHP array-key coercion is not modelled. PHP turns a numeric-string id or path such as `"12"` into the integer key `12`. The model keeps string keys, and the key order is unaffected.
- `SplFileInfo::getRealPath()` returning false is not modelled. Every discovered file has a path.

## Notes on behaviour

The model follows the code where it is more specific than a plain reading of "non-empty" or "true":

- A `target-language` of `"0"` counts as empty (PHP `empty()`), so such a file is filed under its source language (`Xliff.ZeroTargetLanguageIsIgnored`).
- The singleFileExport option switches per-file mode on only for `"0"`, `""` or a bare `--singleFileExport` (null). `--singleFileExport=false` keeps single-file mode, because `"false"` is a non-empty string (`Php.FlagSpellings`).
- `--format` given without a value arrives as null. The option's default `csv` does not apply then, and once files are found the call to `buildExportService` fails with a TypeError (`ExportCommand.Execute`).
- A file with no units, or a file found twice, is not an error. A file with no units adds nothing in single-file mode; in per-file mode it adds its path with an empty unit list. In per-file mode a file found twice replaces the earlier entry in place.

=== FILE: Aggregation.dfy ===
/** The loop body of the export command: how the units of the discovered files
    are gathered into the structure handed to the writer.

    Single-file mode builds a table `id -> language -> text`, both levels
    insertion-ordered, by writing one cell per unit, file after file and unit
    after unit; a later write to the same (id, language) replaces the earlier
    one. Per-file mode maps each file's real path to its unit list, unmerged. */
module Aggregation {
  import opened Wrappers
  import opened OrderedMap
  import opened Xliff
  import Php

  /** One assignment `$table[$id][$language] = $value`. */
  datatype Cell = Cell(id: string, language: string, value: string)

  /** language -> text, languages in first-seen order. */
  type Row = OMap<string, string>
  /** unit id -> row, ids in first-seen order. */
  type Table = OMap<string, Row>

  /** What the writer is given. */
  datatype Items =
    | Rows(table: Table)
    | Files(files: OMap<string, seq<TransUnit>>)

  ghost predicate WellFormed(t: Table) {
    Valid(t) && forall id :: id in t.entries ==> Valid(t.entries[id])
  }

  /** The row of `id`, empty when the id has not been seen. */
  function RowOf(t: Table, id: string): Row {
    if id in t.entries then t.entries[id] else Empty()
  }

  /** `$table[$id][$language]`, None when unset. */
  function Lookup(t: Table, id: string, language: string): Option<string> {
    if id in t.entries then Get(t.entries[id], language) else None
  }

  /** Writes one cell: afterwards the cell's (id, language) holds its value. */
  function Upsert(t: Table, c: Cell): (r: Table)
    ensures Lookup(r, c.id, c.language) == Some(c.value)
  {
    Put(t, c.id, Put(RowOf(t, c.id), c.language, c.value))
  }

  /** Writing a cell changes that one (id, language) entry and nothing else:
      the other languages of the same id and all other ids keep their text. */
  lemma UpsertKeepsOthers(t: Table, c: Cell, id: string, language: string)
    requires id != c.id || language != c.language
    ensures Lookup(Upsert(t, c), id, language) == Lookup(t, id, language)
  {
  }

  /** Writing a cell appends a new id after the known ones and a new language
      after the languages its id already has; known ones keep their place,
      and the rows of other ids are untouched. */
  lemma UpsertOrder(t: Table, c: Cell)
    ensures c.id in t.keys ==> Upsert(t, c).keys == t.keys
    ensures c.id !in t.keys ==> Upsert(t, c).keys == t.keys + [c.id]
    ensures c.language in RowOf(t, c.id).keys ==>
              RowOf(Upsert(t, c), c.id).keys == RowOf(t, c.id).keys
    ensures c.language !in RowOf(t, c.id).keys ==>
              RowOf(Upsert(t, c), c.id).keys == RowOf(t, c.id).keys + [c.language]
    ensures forall id :: id != c.id ==> RowOf(Upsert(t, c), id) == RowOf(t, id)
  {
  }

  /** A write keeps every id, and every language of every row, listed
      exactly once. */
  lemma UpsertKeepsWellFormed(t: Table, c: Cell)
    requires WellFormed(t)
    ensures WellFormed(Upsert(t, c))
  {
    var row := RowOf(t, c.id);
    PutKeepsValid(row, c.language, c.value);
    PutKeepsValid(t, c.id, Put(row, c.language, c.value));
  }

  /** The cell a unit produces in a file resolved as `res`. */
  function CellOf(u: TransUnit, res: Resolution): Cell {
    Cell(Php.Text(u.id), res.language, UnitValue(u, res.translated))
  }

  /** The cells of one file: exactly one per unit, in document order, all
      filed under the file's language; no unit is dropped. */
  function FileCells(d: Document): (cs: seq<Cell>)
    ensures |cs| == |d.units|
    ensures forall i :: 0 <= i < |cs| ==>
              cs[i].id == Php.Text(d.units[i].id) && cs[i].language == Resolve(d).language
    ensures forall i :: 0 <= i < |cs| ==>
              cs[i].value == UnitValue(d.units[i], Resolve(d).translated)
  {
    var res := Resolve(d);
    seq(|d.units|, i requires 0 <= i < |d.units| => CellOf(d.units[i], res))
  }

  /** The cells of all files, in processing order. */
  function Cells(files: seq<ParsedFile>): seq<Cell>
    decreases |files|
  {
    if files == [] then []
    else Cells(files[..|files| - 1]) + FileCells(files[|files| - 1].document)
  }

  /** The table left by writing `cells` in order into an empty table. */
  function Fill(cells: seq<Cell>): Table
    decreases |cells|
  {
    if cells == [] then Empty()
    else Upsert(Fill(cells[..|cells| - 1]), cells[|cells| - 1])
  }

  lemma {:induction false} FillWellFormed(cells: seq<Cell>)
    ensures WellFormed(Fill(cells))
    decreases |cells|
  {
    if cells != [] {
      var n := |cells| - 1;
      FillWellFormed(cells[..n]);
      UpsertKeepsWellFormed(Fill(cells[..n]), cells[n]);
    }
  }

  /** The single-file-mode result. */
  function SingleFileTable(files: seq<ParsedFile>): Table {
    Fill(Cells(files))
  }

  /** The (path, units) pairs of per-file mode, in processing order. */
  function Entries(files: seq<ParsedFile>): (es: seq<(string, seq<TransUnit>)>)
    ensures |es| == |files|
    ensures forall i :: 0 <= i < |files| ==>
              es[i] == (files[i].realPath, files[i].document.units)
  {
    seq(|files|, i requires 0 <= i < |files| => (files[i].realPath, files[i].document.units))
  }

  /** The per-file-mode result: `$items[$realPath] = $units` for every file. */
  function PerFileTable(files: seq<ParsedFile>): OMap<string, seq<TransUnit>> {
    PutAll(Empty(), Entries(files))
  }

  function Aggregate(files: seq<ParsedFile>, singleFileExport: bool): Items {
    if singleFileExport then Rows(SingleFileTable(files)) else Files(PerFileTable(files))
  }

  // ---------------------------------------------------------------------
  // Reference descriptions of the single-file table

  /** The ids of the cells, in order, repeats included. */
  function Ids(cells: seq<Cell>): (ids: seq<string>)
    ensures |ids| == |cells|
    ensures forall i :: 0 <= i < |cells| ==> ids[i] == cells[i].id
    decreases |cells|
  {
    if cells == [] then [] else Ids(cells[..|cells| - 1]) + [cells[|cells| - 1].id]
  }

  /** The languages of the cells written for `id`, in order, repeats included. */
  function LanguagesOf(cells: seq<Cell>, id: string): seq<string>
    decreases |cells|
  {
    if cells == [] then []
    else
      var c := cells[|cells| - 1];
      LanguagesOf(cells[..|cells| - 1], id) + (if c.id == id then [c.language] else [])
  }

  /** Cell `i` is the last one written for its (id, language). */
  ghost predicate IsLastCell(cells: seq<Cell>, i: int) {
    && 0 <= i < |cells|
    && forall j :: i < j < |cells| ==>
         cells[j].id != cells[i].id || cells[j].language != cells[i].language
  }

  /** Last write wins: the text stored for an (id, language) is the value of
      the last cell written for it, whichever file it came from. */
  lemma {:induction false} FillLastWriteWins(cells: seq<Cell>, i: int)
    requires IsLastCell(cells, i)
    ensures Lookup(Fill(cells), cells[i].id, cells[i].language) == Some(cells[i].value)
    decreases |cells|
  {
    var n := |cells| - 1;
    var c := cells[i];
    var t := Fill(cells[..n]);
    assert Fill(cells) == Upsert(t, cells[n]);
    if i < n {
      assert IsLastCell(cells[..n], i);
      FillLastWriteWins(cells[..n], i);
      assert Lookup(t, c.id, c.language) == Some(c.value);
      UpsertKeepsOthers(t, cells[n], c.id, c.language);
    }
  }

  /** An (id, language) no cell writes stays unset. */
  lemma {:induction false} FillUnset(cells: seq<Cell>, id: string, language: string)
    requires forall i :: 0 <= i < |cells| ==> cells[i].id != id || cells[i].language != language
    ensures Lookup(Fill(cells), id, language) == None
    decreases |cells|
  {
    if cells != [] {
      var n := |cells| - 1;
      FillUnset(cells[..n], id, language);
      UpsertKeepsOthers(Fill(cells[..n]), cells[n], id, language);
    }
  }

  /** Rows are the ids of all cells, each once, in first-seen order. */
  lemma {:induction false} FillRowOrder(cells: seq<Cell>)
    ensures FirstSeenOrder(Fill(cells).keys, Ids(cells))
    decreases |cells|
  {
    if cells != [] {
      var n := |cells| - 1;
      var t := Fill(cells[..n]);
      assert Fill(cells) == Upsert(t, cells[n]);
      FillRowOrder(cells[..n]);
      UpsertOrder(t, cells[n]);
      FirstSeenStep(t.keys, Ids(cells[..n]), cells[n].id);
    }
  }

  /** The columns of each row are the languages written for that id, each
      once, in first-seen order: a later file adds its language after the
      ones the id already has. */
  lemma {:induction false} FillColumnOrder(cells: seq<Cell>, id: string)
    ensures FirstSeenOrder(RowOf(Fill(cells), id).keys, LanguagesOf(cells, id))
    decreases |cells|
  {
    if cells != [] {
      var n := |cells| - 1;
      var c := cells[n];
      var t := Fill(cells[..n]);
      var s := LanguagesOf(cells[..n], id);
      assert Fill(cells) == Upsert(t, c);
      FillColumnOrder(cells[..n], id);
      UpsertOrder(t, c);
      if c.id == id {
        assert LanguagesOf(cells, id) == s + [c.language];
        FirstSeenStep(RowOf(t, id).keys, s, c.language);
      } else {
        assert LanguagesOf(cells, id) == s;
        assert RowOf(Fill(cells), id) == RowOf(t, id);
      }
    }
  }

  /** Writing one more cell. */
  lemma FillAppendCell(cells: seq<Cell>, c: Cell)
    ensures Fill(cells + [c]) == Upsert(Fill(cells), c)
  {
  }

  /** The table left by writing `cells` in order into `t`. */
  function FillFrom(t: Table, cells: seq<Cell>): Table
    decreases |cells|
  {
    if cells == [] then t
    else Upsert(FillFrom(t, cells[..|cells| - 1]), cells[|cells| - 1])
  }

  /** Writing `a` and then `b` into an empty table leaves what writing `b`
      into the table left by `a` leaves. */
  lemma {:induction false} FillThenFillFrom(a: seq<Cell>, b: seq<Cell>)
    ensures Fill(a + b) == FillFrom(Fill(a), b)
    decreases |b|
  {
    if b == [] {
      AppendNone(a, b);
    } else {
      var n := |b| - 1;
      var front, x := b[..n], b[n];
      FillThenFillFrom(a, front);
      SplitLast(b);
      AppendOne(a, front, x);
      FillAppendCell(a + front, x);
    }
  }

  /** Single-file mode, one more file: its cells are written, in order,
      into the table the earlier files left. */
  lemma SingleFileStep(files: seq<ParsedFile>, f: ParsedFile)
    ensures SingleFileTable(files + [f]) == FillFrom(SingleFileTable(files), FileCells(f.document))
  {
    CellsAppend(files, f);
    FillThenFillFrom(Cells(files), FileCells(f.document));
  }

  /** Writing the cell of unit `j` of a file extends the cells of that file
      written so far by one. */
  lemma FillFromNextUnit(t: Table, d: Document, j: int)
    requires 0 <= j < |d.units|
    ensures FillFrom(t, FileCells(d)[..j + 1]) ==
            Upsert(FillFrom(t, FileCells(d)[..j]), CellOf(d.units[j], Resolve(d)))
  {
    TakeOfTake(FileCells(d), j);
  }

  // Sequence facts, stated generically so that the solver does not unfold
  // cell equality while proving them.

  lemma TakeOneMore<T>(s: seq<T>, j: int)
    requires 0 <= j < |s|
    ensures s[..j + 1] == s[..j] + [s[j]]
  {
  }

  lemma TakeNoneOrAll<T>(a: seq<T>, b: seq<T>)
    ensures a + b[..0] == a
    ensures b[..|b|] == b
  {
  }

  lemma TakeOfTake<T>(s: seq<T>, j: int)
    requires 0 <= j < |s|
    ensures s[..j + 1][..j] == s[..j]
  {
  }

  lemma AppendNone<T>(a: seq<T>, b: seq<T>)
    requires b == []
    ensures a + b == a
  {
  }

  lemma SplitLast<T>(s: seq<T>)
    requires s != []
    ensures s == s[..|s| - 1] + [s[|s| - 1]]
  {
  }

  lemma AppendOne<T>(a: seq<T>, b: seq<T>, x: T)
    ensures a + (b + [x]) == (a + b) + [x]
  {
  }

  /** Processing one more file writes its cells after those of the earlier files. */
  lemma CellsAppend(files: seq<ParsedFile>, f: ParsedFile)
    ensures Cells(files + [f]) == Cells(files) + FileCells(f.document)
  {
  }

  /** The cells of the first `m` files come first. */
  lemma {:induction false} CellsPrefix(files: seq<ParsedFile>, m: int)
    requires 0 <= m <= |files|
    ensures Cells(files[..m]) <= Cells(files)
    decreases |files|
  {
    if m < |files| {
      var n := |files| - 1;
      assert files[..n][..m] == files[..m];
      CellsPrefix(files[..n], m);
      assert Cells(files) == Cells(files[..n]) + FileCells(files[n].document);
    } else {
      assert files[..m] == files;
    }
  }

  /** Where each unit's cell sits in the stream: unit `k` of file `i` is
      written right after the cells of the files before `i` and the units
      before `k`. */
  lemma CellPosition(files: seq<ParsedFile>, i: int, k: int)
    requires 0 <= i < |files| && 0 <= k < |files[i].document.units|
    ensures var p := |Cells(files[..i])| + k;
            && p < |Cells(files)|
            && Cells(files)[p] == UnitCell(files, i, k)
  {
    var d := files[i].document;
    CellsPrefix(files, i + 1);
    assert files[..i + 1] == files[..i] + [files[i]];
    CellsAppend(files[..i], files[i]);
    var pre := Cells(files[..i + 1]);
    assert pre == Cells(files[..i]) + FileCells(d);
    assert pre[|Cells(files[..i])| + k] == FileCells(d)[k];
  }

  /** The cell written for unit `k` of file `i`. */
  function UnitCell(files: seq<ParsedFile>, i: int, k: int): Cell
    requires 0 <= i < |files| && 0 <= k < |files[i].document.units|
  {
    CellOf(files[i].document.units[k], Resolve(files[i].document))
  }

  /** Every position of the stream comes from some unit of some file. */
  lemma {:induction false} CellSource(files: seq<ParsedFile>, p: int) returns (i: int, k: int)
    requires 0 <= p < |Cells(files)|
    ensures 0 <= i < |files| && 0 <= k < |files[i].document.units|
    ensures p == |Cells(files[..i])| + k
    decreases |files|
  {
    var n := |files| - 1;
    var before := Cells(files[..n]);
    assert Cells(files) == before + FileCells(files[n].document);
    if p < |before| {
      i, k := CellSource(files[..n], p);
      assert files[..n][..i] == files[..i];
    } else {
      i, k := n, p - |before|;
    }
  }

  /** The cells of earlier files all come before those of a later file. */
  lemma EarlierFileFirst(files: seq<ParsedFile>, a: int, b: int)
    requires 0 <= a < b <= |files|
    ensures |Cells(files[..a])| + |files[a].document.units| <= |Cells(files[..b])|
  {
    CellsPrefix(files[..b], a + 1);
    assert files[..b][..a + 1] == files[..a + 1];
    assert files[..a + 1] == files[..a] + [files[a]];
    CellsAppend(files[..a], files[a]);
  }

  /** Position `j` holds a unit processed after unit `k` of file `i`. */
  lemma LaterPosition(files: seq<ParsedFile>, i: int, k: int, j: int) returns (i2: int, k2: int)
    requires 0 <= i < |files| && 0 <= k < |files[i].document.units|
    requires |Cells(files[..i])| + k < j < |Cells(files)|
    ensures 0 <= i2 < |files| && 0 <= k2 < |files[i2].document.units|
    ensures i < i2 || (i == i2 && k < k2)
    ensures Cells(files)[j] == UnitCell(files, i2, k2)
  {
    i2, k2 := CellSource(files, j);
    CellPosition(files, i2, k2);
    if i2 < i {
      EarlierFileFirst(files, i2, i);
    }
  }

  /** No unit processed after unit `k` of file `i` has its id and language. */
  ghost predicate IsLastUnit(files: seq<ParsedFile>, i: int, k: int)
    requires 0 <= i < |files| && 0 <= k < |files[i].document.units|
  {
    forall i2, k2 ::
      && 0 <= i2 < |files| && 0 <= k2 < |files[i2].document.units|
      && (i < i2 || (i == i2 && k < k2))
      ==> UnitCell(files, i2, k2).id != UnitCell(files, i, k).id
          || UnitCell(files, i2, k2).language != UnitCell(files, i, k).language
  }

  lemma LastUnitIsLastCell(files: seq<ParsedFile>, i: int, k: int)
    requires 0 <= i < |files| && 0 <= k < |files[i].document.units|
    requires IsLastUnit(files, i, k)
    ensures IsLastCell(Cells(files), |Cells(files[..i])| + k)
    ensures Cells(files)[|Cells(files[..i])| + k] == UnitCell(files, i, k)
  {
    var cells := Cells(files);
    var p := |Cells(files[..i])| + k;
    CellPosition(files, i, k);
    forall j | p < j < |cells|
      ensures cells[j].id != cells[p].id || cells[j].language != cells[p].language
    {
      var i2, k2 := LaterPosition(files, i, k, j);
    }
  }

  /** Last write wins, across files and units: when no unit processed
      after unit `k` of file `i` has its id and its file's language, the
      table holds that unit's text there. */
  lemma FileLastWriteWins(files: seq<ParsedFile>, i: int, k: int)
    requires 0 <= i < |files| && 0 <= k < |files[i].document.units|
    requires IsLastUnit(files, i, k)
    ensures var c := UnitCell(files, i, k);
            Lookup(SingleFileTable(files), c.id, c.language) == Some(c.value)
  {
    LastUnitIsLastCell(files, i, k);
    LastCellIsStored(files, |Cells(files[..i])| + k, UnitCell(files, i, k));
  }

  lemma LastCellIsStored(files: seq<ParsedFile>, p: int, c: Cell)
    requires IsLastCell(Cells(files), p) && Cells(files)[p] == c
    ensures Lookup(SingleFileTable(files), c.id, c.language) == Some(c.value)
  {
    FillLastWriteWins(Cells(files), p);
  }

  /** An (id, language) that no unit of any file writes is absent. */
  lemma FileUnset(files: seq<ParsedFile>, id: string, language: string)
    requires forall i, k :: 0 <= i < |files| && 0 <= k < |files[i].document.units| ==>
               UnitCell(files, i, k).id != id || UnitCell(files, i, k).language != language
    ensures Lookup(SingleFileTable(files), id, language) == None
  {
    var cells := Cells(files);
    forall j | 0 <= j < |cells|
      ensures cells[j].id != id || cells[j].language != language
    {
      var i, k := CellSource(files, j);
      CellPosition(files, i, k);
    }
    FillUnset(cells, id, language);
  }

  /** Some unit of some processed file has this id. */
  ghost predicate HasUnitWithId(files: seq<ParsedFile>, id: string) {
    exists i, k :: && 0 <= i < |files|
                   && 0 <= k < |files[i].document.units|
                   && Php.Text(files[i].document.units[k].id) == id
  }

  /** Some unit of the document has this id. */
  ghost predicate DocumentHasUnitWithId(d: Document, id: string) {
    exists k :: 0 <= k < |d.units| && Php.Text(d.units[k].id) == id
  }

  lemma IdsAppend(a: seq<Cell>, b: seq<Cell>, id: string)
    ensures id in Ids(a + b) <==> id in Ids(a) || id in Ids(b)
  {
    var ids := Ids(a) + Ids(b);
    assert forall m :: 0 <= m < |a + b| ==> Ids(a + b)[m] == ids[m];
    assert Ids(a + b) == ids;
  }

  lemma FileCellIds(d: Document, id: string)
    ensures id in Ids(FileCells(d)) <==> DocumentHasUnitWithId(d, id)
  {
  }

  lemma HasUnitWithIdLast(files: seq<ParsedFile>, id: string)
    requires files != []
    ensures HasUnitWithId(files, id) <==>
            || HasUnitWithId(files[..|files| - 1], id)
            || DocumentHasUnitWithId(files[|files| - 1].document, id)
  {
  }

  lemma {:induction false} CellIdsOfFiles(files: seq<ParsedFile>, id: string)
    ensures id in Ids(Cells(files)) <==> HasUnitWithId(files, id)
    decreases |files|
  {
    if files != [] {
      var n := |files| - 1;
      var p := files[..n];
      var d := files[n].document;
      assert Cells(files) == Cells(p) + FileCells(d);
      CellIdsOfFiles(p, id);
      IdsAppend(Cells(p), FileCells(d), id);
      FileCellIds(d, id);
      HasUnitWithIdLast(files, id);
    }
  }

  /** The rows of the single-file table are exactly the ids of the units of
      all processed files, each once, in first-seen order. */
  lemma SingleFileRows(files: seq<ParsedFile>, id: string)
    ensures FirstSeenOrder(SingleFileTable(files).keys, Ids(Cells(files)))
    ensures id in SingleFileTable(files).keys <==> HasUnitWithId(files, id)
  {
    FillRowOrder(Cells(files));
    CellIdsOfFiles(files, id);
  }

  /** A unit of a translation without a `<target>` still gets its row, with
      "" under the file's language. */
  lemma MissingTargetKeepsRow(t: Table, d: Document, u: TransUnit)
    requires !Php.Empty(d.targetLanguage) && u.target.None?
    ensures var r := Upsert(t, CellOf(u, Resolve(d)));
            Php.Text(u.id) in r.keys && Lookup(r, Php.Text(u.id), d.targetLanguage.value) == Some("")
  {
  }

  /** Two writes to one id under different languages: one row, both
      columns, in the order written. */
  lemma TwoLanguagesOneRow(c1: Cell, c2: Cell)
    requires c1.id == c2.id && c1.language != c2.language
    ensures var t := Fill([c1, c2]);
            && t.keys == [c1.id]
            && RowOf(t, c1.id).keys == [c1.language, c2.language]
            && Lookup(t, c1.id, c1.language) == Some(c1.value)
            && Lookup(t, c1.id, c2.language) == Some(c2.value)
  {
    FillAppendCell([], c1);
    assert [] + [c1] == [c1];
    var t1 := Fill([c1]);
    FillAppendCell([c1], c2);
    assert [c1] + [c2] == [c1, c2];
    UpsertOrder(Empty(), c1);
    UpsertOrder(t1, c2);
    UpsertKeepsOthers(t1, c2, c1.id, c1.language);
  }

  const EnglishSource: ParsedFile :=
    ParsedFile("/ext/locallang.xlf",
               Document(Some("en"), None, [TransUnit(Some("greeting"), Some("Hello"), None)]))

  const GermanTranslation: ParsedFile :=
    ParsedFile("/ext/de.locallang.xlf",
               Document(Some("en"), Some("de"), [TransUnit(Some("greeting"), Some("Hello"), Some("Hallo"))]))

  lemma ExampleCells()
    ensures Cells([EnglishSource, GermanTranslation]) ==
            [Cell("greeting", "en", "Hello"), Cell("greeting", "de", "Hallo")]
  {
    assert FileCells(EnglishSource.document) == [Cell("greeting", "en", "Hello")];
    assert FileCells(GermanTranslation.document) == [Cell("greeting", "de", "Hallo")];
    CellsAppend([EnglishSource], GermanTranslation);
    assert [EnglishSource, GermanTranslation] == [EnglishSource] + [GermanTranslation];
  }

  /** An English source file and its German translation merge into one row
      `greeting` with the columns `en` then `de`. */
  lemma MergedTranslationExample()
    ensures var t := SingleFileTable([EnglishSource, GermanTranslation]);
            && t.keys == ["greeting"]
            && RowOf(t, "greeting").keys == ["en", "de"]
            && Lookup(t, "greeting", "en") == Some("Hello")
            && Lookup(t, "greeting", "de") == Some("Hallo")
  {
    ExampleCells();
    TwoLanguagesOneRow(Cell("greeting", "en", "Hello"), Cell("greeting", "de", "Hallo"));
  }

  // ---------------------------------------------------------------------
  // Per-file mode

  /** The real paths of the files, in processing order: the keys of the
      per-file writes. */
  function Paths(files: seq<ParsedFile>): (ps: seq<string>)
    ensures |ps| == |files|
    ensures forall i :: 0 <= i < |files| ==> ps[i] == files[i].realPath
  {
    KeysOf(Entries(files))
  }

  /** Each path maps to the unit list of the last file with that path,
      stored as is; no units of other files are merged in. */
  lemma PerFileLastWriteWins(files: seq<ParsedFile>, i: int)
    requires 0 <= i < |files|
    requires forall j :: i < j < |files| ==> files[j].realPath != files[i].realPath
    ensures Get(PerFileTable(files), files[i].realPath) == Some(files[i].document.units)
  {
    PutAllLastWriteWins(Empty(), Entries(files), i);
  }

  /** Every path is listed exactly once. */
  lemma PerFileValid(files: seq<ParsedFile>)
    ensures Valid(PerFileTable(files))
  {
    PutAllKeepsValid(Empty(), Entries(files));
  }

  /** A path no processed file has is absent. */
  lemma PerFileUnset(files: seq<ParsedFile>, path: string)
    requires forall i :: 0 <= i < |files| ==> files[i].realPath != path
    ensures Get(PerFileTable(files), path) == None
  {
    PutAllUntouched(Empty(), Entries(files), path);
  }

  /** The paths appear once each, in first-seen order. */
  lemma PerFileOrder(files: seq<ParsedFile>)
    ensures FirstSeenOrder(PerFileTable(files).keys, Paths(files))
  {
    PutAllFirstSeen(Entries(files));
  }
}

=== FILE: ExportCommand.dfy ===
/** The export command itself: where it looks for files, which writer it
    builds, and what one run hands to that writer.

    Directory scanning, XML loading and the writers' serialisation are not
    modelled: discovery is the parameter `finder` (None when the search folder
    does not exist, which makes Symfony Finder's `in()` throw; otherwise the
    files the search yields, in enumeration order, each with its loaded
    content or None when loading fails), and the event that may replace the
    writer is the parameter `hook`. */
module ExportCommand {
  import opened Wrappers
  import opened OrderedMap
  import opened Xliff
  import opened Aggregation
  import Php

  /** `Command::SUCCESS`. */
  const SUCCESS: int := 0

  /** Where an extension keeps its translation files, below its own folder. */
  const LanguageDirectory: string := "/Resources/Private/Language"

  /** The file-name pattern used when no file is named. */
  const DefaultPattern: string := "*.xlf"

  /** The values of the command's options as `execute` receives them; a
      string option given without a value arrives as None (null). */
  datatype Options = Options(
    extension: string,
    file: Option<string>,
    path: Option<string>,
    format: Option<string>,
    singleFileExport: Php.Flag)

  /** A directory to search and the file-name pattern to match in it. */
  datatype Search = Search(folder: string, pattern: string)

  datatype WriterKind = Csv | Xlsx

  /** A writer as the factory builds it: its format and the configuration the
      command sets on the factory beforehand. */
  datatype Writer = Writer(kind: WriterKind, extensionName: string, singleFileExport: bool)

  /** What is saved: the writer and the items set on it. */
  datatype Export = Export(writer: Writer, items: Items)

  /** Either the command returns an exit code, having saved one export or
      nothing, or it dies with an uncaught exception:
      - FolderNotFound: the search folder does not exist;
      - FormatTypeError: files were found but the format option is null, which
        the `string $format` parameter of `buildExportService` rejects;
      - Aborted: the content of a discovered file does not load (the first
        such file is reported). */
  datatype Outcome =
    | Completed(exitCode: int, saved: Option<Export>)
    | FolderNotFound(folder: string)
    | FormatTypeError
    | Aborted(failedPath: string)

  function LanguageFolder(extensionsPath: string, extension: string): string {
    extensionsPath + "/" + extension + LanguageDirectory
  }

  /** Without a (non-empty) file option the name pattern is `*.xlf` and the
      folder is the extension's language folder; with one, the file option
      itself becomes the name pattern (Finder reads it as a glob or a regular
      expression) and the folder gets `/` and the path option appended. */
  function SearchTarget(extensionsPath: string, opts: Options): (s: Search)
    ensures Php.Empty(opts.file) ==>
              s == Search(LanguageFolder(extensionsPath, opts.extension), DefaultPattern)
    ensures !Php.Empty(opts.file) ==>
              && s.pattern == opts.file.value
              && s.folder == LanguageFolder(extensionsPath, opts.extension) + "/" + Php.Text(opts.path)
  {
    var folder := LanguageFolder(extensionsPath, opts.extension);
    if !Php.Empty(opts.file) then Search(folder + "/" + Php.Text(opts.path), opts.file.value)
    else Search(folder, DefaultPattern)
  }

  /** As a string, the searched folder always starts with the extension's
      language folder (a path option such as `../..` can still point outside
      it on disk), and the path option only matters together with a file
      option. */
  lemma SearchFolderHasLanguagePrefix(extensionsPath: string, opts: Options, otherPath: Option<string>)
    ensures LanguageFolder(extensionsPath, opts.extension) <= SearchTarget(extensionsPath, opts).folder
    ensures Php.Empty(opts.file) ==>
              SearchTarget(extensionsPath, opts) == SearchTarget(extensionsPath, opts.(path := otherPath))
  {
  }

  /** The `switch ($format)`: "xlsx" selects the spreadsheet writer; any
      other string selects CSV. */
  function SelectWriter(format: string): (k: WriterKind)
    ensures k == Xlsx <==> format == "xlsx"
    ensures k == Csv <==> format != "xlsx"
  {
    if format == "xlsx" then Xlsx else Csv
  }

  /** The format keyword of each writer. */
  function Keyword(k: WriterKind): string {
    match k
    case Csv => "csv"
    case Xlsx => "xlsx"
  }

  /** Each writer is selected by its own keyword, and the format option's
      default selects CSV. */
  lemma KeywordSelectsWriter(k: WriterKind)
    ensures SelectWriter(Keyword(k)) == k
    ensures SelectWriter("csv") == Csv
  {
  }

  /** `buildExportService`, called with the format option as `execute` reads
      it. Its `string $format` parameter rejects null (None: a TypeError);
      otherwise it configures the factory with the extension and the mode,
      builds the writer the format selects, and lets the hook replace it. */
  function BuildExportService(extension: string, singleFileExport: bool, format: Option<string>,
                              hook: Writer -> Writer): Option<Writer>
  {
    if format.None? then None
    else Some(hook(Writer(SelectWriter(format.value), extension, singleFileExport)))
  }

  /** A null format never yields a writer. Without a listener replacing it,
      the writer is the one the factory was configured for: the extension
      and mode `execute` passes, in the format the option names (xlsx
      exactly for "xlsx"). */
  lemma UnhookedWriterIsConfigured(extension: string, singleFileExport: bool, format: string)
    ensures BuildExportService(extension, singleFileExport, None, w => w).None?
    ensures var r := BuildExportService(extension, singleFileExport, Some(format), w => w);
            && r.Some?
            && r.value.extensionName == extension
            && r.value.singleFileExport == singleFileExport
            && (r.value.kind == Xlsx <==> format == "xlsx")
  {
  }

  /** Loads the discovered files in order, stopping at the first one whose
      content does not load. */
  function ParseAll(found: seq<SourceFile>): (r: Result<seq<ParsedFile>, string>)
    ensures r.Success? <==> forall i :: 0 <= i < |found| ==> found[i].document.Some?
    ensures r.Success? ==>
              && |r.value| == |found|
              && forall i :: 0 <= i < |found| ==>
                   r.value[i] == ParsedFile(found[i].realPath, found[i].document.value)
    ensures r.Failure? ==>
              exists i :: && 0 <= i < |found|
                          && found[i].document.None?
                          && found[i].realPath == r.error
                          && forall j :: 0 <= j < i ==> found[j].document.Some?
  {
    if found == [] then Success([])
    else if found[0].document.None? then Failure(found[0].realPath)
    else
      match ParseAll(found[1..])
      case Failure(path) =>
        ghost var i :| && 0 <= i < |found[1..]|
                       && found[1..][i].document.None?
                       && found[1..][i].realPath == path
                       && forall j :: 0 <= j < i ==> found[1..][j].document.Some?;
        assert found[i + 1] == found[1..][i];
        Failure(path)
      case Success(rest) =>
        Success([ParsedFile(found[0].realPath, found[0].document.value)] + rest)
  }

  /** One run of the command. */
  function Execute(opts: Options, extensionsPath: string,
                   finder: Search -> Option<seq<SourceFile>>, hook: Writer -> Writer): (r: Outcome)
    ensures var search := SearchTarget(extensionsPath, opts);
            var found := finder(search);
            && (r.FolderNotFound? <==> found.None?)
            && (r.FolderNotFound? ==> r.folder == search.folder)
            && (found == Some([]) ==> r == Completed(SUCCESS, None))
            && (r.Completed? ==> r.exitCode == SUCCESS)
            && (r.FormatTypeError? <==> found.Some? && found.value != [] && opts.format.None?)
            && (r.Aborted? <==>
                  && found.Some? && opts.format.Some?
                  && exists i :: 0 <= i < |found.value| && found.value[i].document.None?)
            && (r.Aborted? ==> found.Some? && ParseAll(found.value) == Failure(r.failedPath))
            && (r.Completed? && found != Some([]) ==>
                  && opts.format.Some?
                  && r.saved.Some?
                  && r.saved.value.writer ==
                       hook(Writer(SelectWriter(opts.format.value), opts.extension,
                                   Php.BoolCast(opts.singleFileExport)))
                  && ParseAll(found.value).Success?
                  && var parsed := ParseAll(found.value).value;
                     r.saved.value.items ==
                       if Php.BoolCast(opts.singleFileExport) then Rows(SingleFileTable(parsed))
                       else Files(PerFileTable(parsed)))
  {
    var search := SearchTarget(extensionsPath, opts);
    match finder(search)
    case None => FolderNotFound(search.folder)
    case Some(found) =>
      if found == [] then Completed(SUCCESS, None)
      else
        var singleFileExport := Php.BoolCast(opts.singleFileExport);
        match BuildExportService(opts.extension, singleFileExport, opts.format, hook)
        case None => FormatTypeError
        case Some(writer) =>
          match ParseAll(found)
          case Failure(path) => Aborted(path)
          case Success(parsed) => Completed(SUCCESS, Some(Export(writer, Aggregate(parsed, singleFileExport))))
  }

  /** The first file that does not load is the one the run dies on. */
  lemma {:induction false} ParseAllStopsAtFirstFailure(found: seq<SourceFile>, i: int)
    requires 0 <= i < |found| && found[i].document.None?
    requires forall k :: 0 <= k < i ==> found[k].document.Some?
    ensures ParseAll(found) == Failure(found[i].realPath)
    decreases i
  {
    if i > 0 {
      var rest := found[1..];
      assert rest[i - 1] == found[i];
      assert forall k :: 0 <= k < i - 1 ==> rest[k] == found[k + 1];
      ParseAllStopsAtFirstFailure(rest, i - 1);
    }
  }

  lemma ParseAllLoadsEveryFile(found: seq<SourceFile>, parsed: seq<ParsedFile>)
    requires |parsed| == |found|
    requires forall k :: 0 <= k < |found| ==>
               found[k].document.Some? && parsed[k] == ParsedFile(found[k].realPath, found[k].document.value)
    ensures ParseAll(found) == Success(parsed)
  {
  }

  /** Per-file mode, one more file: `$items[$realPath] = $units`. */
  lemma PerFileStep(parsed: seq<ParsedFile>, f: ParsedFile)
    ensures PerFileTable(parsed + [f]) == Put(PerFileTable(parsed), f.realPath, f.document.units)
  {
    assert Entries(parsed + [f])[..|parsed|] == Entries(parsed);
  }

  /** Single-file mode, one file: writes the cell of each unit in turn. */
  method WriteUnits(table: Table, document: Document) returns (t: Table)
    ensures t == FillFrom(table, FileCells(document))
  {
    var resolution := Resolve(document);
    ghost var cells := FileCells(document);
    t := table;
    var j := 0;
    while j < |document.units|
      invariant 0 <= j <= |document.units|
      invariant t == FillFrom(table, cells[..j])
    {
      FillFromNextUnit(table, document, j);
      t := Upsert(t, CellOf(document.units[j], resolution));
      j := j + 1;
    }
    TakeNoneOrAll([], cells);
  }

  /** `execute` as written: one pass over the discovered files, writing the
      cells of each file unit by unit in single-file mode. */
  method Run(opts: Options, extensionsPath: string,
             finder: Search -> Option<seq<SourceFile>>, hook: Writer -> Writer) returns (r: Outcome)
    ensures r == Execute(opts, extensionsPath, finder, hook)
  {
    var search := SearchTarget(extensionsPath, opts);
    var result := finder(search);
    if result.None? {
      return FolderNotFound(search.folder);
    }
    var found := result.value;
    if |found| == 0 {
      return Completed(SUCCESS, None);
    }
    var singleFileExport := Php.BoolCast(opts.singleFileExport);
    var service := BuildExportService(opts.extension, singleFileExport, opts.format, hook);
    if service.None? {
      return FormatTypeError;
    }
    var writer := service.value;
    var table: Table := Empty();
    var perFile: OMap<string, seq<TransUnit>> := Empty();
    ghost var parsed: seq<ParsedFile> := [];
    var i := 0;
    while i < |found|
      invariant 0 <= i <= |found|
      invariant |parsed| == i
      invariant forall k :: 0 <= k < i ==>
                  found[k].document.Some? && parsed[k] == ParsedFile(found[k].realPath, found[k].document.value)
      invariant singleFileExport ==> table == SingleFileTable(parsed)
      invariant !singleFileExport ==> perFile == PerFileTable(parsed)
    {
      var file := found[i];
      if file.document.None? {
        ParseAllStopsAtFirstFailure(found, i);
        return Aborted(file.realPath);
      }
      var document := file.document.value;
      var next := ParsedFile(file.realPath, document);
      if singleFileExport {
        table := WriteUnits(table, document);
        SingleFileStep(parsed, next);
      } else {
        perFile := Put(perFile, file.realPath, document.units);
        PerFileStep(parsed, next);
      }
      parsed := parsed + [next];
      i := i + 1;
    }
    ParseAllLoadsEveryFile(found, parsed);
    var items := if singleFileExport then Rows(table) else Files(perFile);
    r := Completed(SUCCESS, Some(Export(writer, items)));
  }
}

=== FILE: OrderedMap.dfy ===
/** An insertion-ordered map: the shape of a PHP array used as a dictionary.
    Keys are kept in the order they were first written; writing to a key that
    is already present replaces its value but leaves it where it was. */
module OrderedMap {
  import opened Wrappers

  datatype OMap<K, V> = OMap(keys: seq<K>, entries: map<K, V>)

  predicate NoDuplicates<T(==,!new)>(s: seq<T>) {
    forall i, j :: 0 <= i < j < |s| ==> s[i] != s[j]
  }

  /** The key sequence lists every key of the map exactly once. */
  ghost predicate Valid<K(!new), V>(m: OMap<K, V>) {
    && NoDuplicates(m.keys)
    && (forall k :: k in m.entries <==> k in m.keys)
  }

  function Empty<K, V>(): OMap<K, V> {
    OMap([], map[])
  }

  function Get<K(!new), V>(m: OMap<K, V>, k: K): Option<V> {
    if k in m.entries then Some(m.entries[k]) else None
  }

  /** `$m[$k] = $v`. */
  function Put<K(!new), V>(m: OMap<K, V>, k: K, v: V): (r: OMap<K, V>)
    ensures Get(r, k) == Some(v)
    ensures forall k' :: k' != k ==> Get(r, k') == Get(m, k')
    ensures k in m.keys ==> r.keys == m.keys
    ensures k !in m.keys ==> r.keys == m.keys + [k]
  {
    OMap(if k in m.keys then m.keys else m.keys + [k], m.entries[k := v])
  }

  /** A write keeps every key listed exactly once. */
  lemma PutKeepsValid<K(!new), V>(m: OMap<K, V>, k: K, v: V)
    requires Valid(m)
    ensures Valid(Put(m, k, v))
  {
  }

  /** Writes the pairs one after the other, in sequence order. */
  function PutAll<K(!new), V>(m: OMap<K, V>, kvs: seq<(K, V)>): OMap<K, V>
    decreases |kvs|
  {
    if kvs == [] then m
    else
      var last := kvs[|kvs| - 1];
      Put(PutAll(m, kvs[..|kvs| - 1]), last.0, last.1)
  }

  /** The keys of the pairs, in order, repeats included. */
  function KeysOf<K(!new), V>(kvs: seq<(K, V)>): (ks: seq<K>)
    ensures |ks| == |kvs|
    ensures forall i :: 0 <= i < |kvs| ==> ks[i] == kvs[i].0
    decreases |kvs|
  {
    if kvs == [] then [] else KeysOf(kvs[..|kvs| - 1]) + [kvs[|kvs| - 1].0]
  }

  /** Index of the first occurrence of `x` in `s`. */
  function FirstIndex<T(==,!new)>(s: seq<T>, x: T): (i: nat)
    requires x in s
    ensures i < |s| && s[i] == x
    ensures forall j :: 0 <= j < i ==> s[j] != x
  {
    if s[0] == x then 0 else 1 + FirstIndex(s[1..], x)
  }

  /** `keys` lists each element of the stream `s` exactly once, in the order
      of their first occurrence in `s`. Given `s`, exactly one sequence
      satisfies this (see FirstSeenOrderUnique). */
  ghost predicate FirstSeenOrder<T(!new)>(keys: seq<T>, s: seq<T>) {
    && NoDuplicates(keys)
    && (forall x :: x in keys <==> x in s)
    && (forall i, j :: 0 <= i < j < |keys| ==> FirstIndex(s, keys[i]) < FirstIndex(s, keys[j]))
  }

  lemma FirstIndexAppend<T(!new)>(s: seq<T>, t: seq<T>, x: T)
    requires x in s
    ensures FirstIndex(s + t, x) == FirstIndex(s, x)
  {
    var i := FirstIndex(s, x);
    var i' := FirstIndex(s + t, x);
    assert (s + t)[i] == x;
    if i' > i {
      assert false;
    }
    assert s[i'] == (s + t)[i'];
  }

  /** One more element of the stream either repeats a known key, leaving the
      order alone, or appends a new key at the end. */
  lemma FirstSeenStep<T(!new)>(keys: seq<T>, s: seq<T>, x: T)
    requires FirstSeenOrder(keys, s)
    ensures FirstSeenOrder(if x in keys then keys else keys + [x], s + [x])
  {
    var keys' := if x in keys then keys else keys + [x];
    var s' := s + [x];
    forall y | y in s
      ensures FirstIndex(s', y) == FirstIndex(s, y)
    {
      FirstIndexAppend(s, [x], y);
    }
    forall i, j | 0 <= i < j < |keys'|
      ensures FirstIndex(s', keys'[i]) < FirstIndex(s', keys'[j])
    {
      assert keys'[i] in keys;
      if j < |keys| {
        assert keys'[j] == keys[j];
      } else {
        assert keys'[j] == x && x !in s;
        assert s'[|s|] == x;
        assert forall k :: 0 <= k < |s| ==> s'[k] == s[k];
        assert FirstIndex(s', x) == |s|;
      }
    }
  }

  /** The first-seen order of a stream is unique. */
  lemma {:induction false} FirstSeenOrderUnique<T(!new)>(a: seq<T>, b: seq<T>, s: seq<T>)
    requires FirstSeenOrder(a, s) && FirstSeenOrder(b, s)
    ensures a == b
    decreases |a|
  {
    FirstSeenEmpty(a, s);
    FirstSeenEmpty(b, s);
    if |a| > 0 {
      // the head of each is the element of `s` with the smallest first index
      HeadIsEarliest(a, s, b[0]);
      HeadIsEarliest(b, s, a[0]);
      assert s[FirstIndex(s, a[0])] == b[0];
      var s' := RemoveAll(s, a[0]);
      FirstSeenTail(a, s);
      FirstSeenTail(b, s);
      FirstSeenOrderUnique(a[1..], b[1..], s');
      assert a == [a[0]] + a[1..];
      assert b == [b[0]] + b[1..];
    }
  }

  lemma FirstSeenEmpty<T(!new)>(keys: seq<T>, s: seq<T>)
    requires FirstSeenOrder(keys, s)
    ensures |keys| == 0 <==> |s| == 0
  {
    if |keys| > 0 {
      assert keys[0] in s;
    }
    if |s| > 0 {
      assert s[0] in keys;
    }
  }

  /** The first key is the one seen first. */
  lemma HeadIsEarliest<T(!new)>(keys: seq<T>, s: seq<T>, x: T)
    requires FirstSeenOrder(keys, s) && x in s
    ensures |keys| > 0 && FirstIndex(s, keys[0]) <= FirstIndex(s, x)
  {
    var k :| 0 <= k < |keys| && keys[k] == x;
    if k > 0 {
      assert FirstIndex(s, keys[0]) < FirstIndex(s, keys[k]);
    }
  }

  /** `s` with every occurrence of `x` taken out. */
  function RemoveAll<T(==,!new)>(s: seq<T>, x: T): (r: seq<T>)
    ensures forall y :: y in r <==> y in s && y != x
    ensures |r| <= |s|
  {
    if s == [] then []
    else if s[0] == x then RemoveAll(s[1..], x)
    else [s[0]] + RemoveAll(s[1..], x)
  }

  /** Removing an element keeps the relative first-occurrence order of the others. */
  lemma {:induction false} FirstIndexRemoveAll<T(!new)>(s: seq<T>, x: T, y: T, z: T)
    requires y in s && z in s && y != x && z != x
    ensures FirstIndex(s, y) < FirstIndex(s, z) <==>
            FirstIndex(RemoveAll(s, x), y) < FirstIndex(RemoveAll(s, x), z)
    decreases |s|
  {
    if s[0] == x {
      assert RemoveAll(s, x) == RemoveAll(s[1..], x);
      FirstIndexRemoveAll(s[1..], x, y, z);
    } else if s[0] == y || s[0] == z {
      assert RemoveAll(s, x)[0] == s[0];
    } else {
      var r := RemoveAll(s, x);
      assert r == [s[0]] + RemoveAll(s[1..], x);
      assert r[1..] == RemoveAll(s[1..], x);
      FirstIndexRemoveAll(s[1..], x, y, z);
    }
  }

  lemma FirstSeenTail<T(!new)>(a: seq<T>, s: seq<T>)
    requires FirstSeenOrder(a, s) && |a| > 0
    ensures FirstSeenOrder(a[1..], RemoveAll(s, a[0]))
  {
    var s' := RemoveAll(s, a[0]);
    var t := a[1..];
    forall y
      ensures y in t <==> y in s'
    {
      if y in t {
        var k :| 0 <= k < |t| && t[k] == y;
        assert a[k + 1] == y;
      }
      if y in s' {
        assert y in a;
        var k :| 0 <= k < |a| && a[k] == y;
        assert k != 0;
        assert t[k - 1] == y;
      }
    }
    forall i, j | 0 <= i < j < |t|
      ensures FirstIndex(s', t[i]) < FirstIndex(s', t[j])
    {
      assert t[i] == a[i + 1] && t[j] == a[j + 1];
      FirstIndexRemoveAll(s, a[0], t[i], t[j]);
    }
  }

  /** Last write wins: the value stored for a key is the one of its last pair. */
  ghost predicate IsLastWrite<K(!new), V>(kvs: seq<(K, V)>, i: int) {
    0 <= i < |kvs| && forall j :: i < j < |kvs| ==> kvs[j].0 != kvs[i].0
  }

  lemma {:induction false} PutAllLastWriteWins<K(!new), V>(m: OMap<K, V>, kvs: seq<(K, V)>, i: int)
    requires IsLastWrite(kvs, i)
    ensures Get(PutAll(m, kvs), kvs[i].0) == Some(kvs[i].1)
    decreases |kvs|
  {
    var n := |kvs| - 1;
    if i < n {
      assert IsLastWrite(kvs[..n], i);
      PutAllLastWriteWins(m, kvs[..n], i);
    }
  }

  /** Keys no pair mentions keep the value they had before. */
  lemma {:induction false} PutAllUntouched<K(!new), V>(m: OMap<K, V>, kvs: seq<(K, V)>, k: K)
    requires forall i :: 0 <= i < |kvs| ==> kvs[i].0 != k
    ensures Get(PutAll(m, kvs), k) == Get(m, k)
    decreases |kvs|
  {
    if kvs != [] {
      PutAllUntouched(m, kvs[..|kvs| - 1], k);
    }
  }

  /** Starting from an empty map, the keys end up in first-seen order. */
  lemma {:induction false} PutAllFirstSeen<K(!new), V>(kvs: seq<(K, V)>)
    ensures FirstSeenOrder(PutAll(Empty(), kvs).keys, KeysOf(kvs))
    decreases |kvs|
  {
    if kvs != [] {
      var n := |kvs| - 1;
      PutAllFirstSeen(kvs[..n]);
      FirstSeenStep(PutAll(Empty(), kvs[..n]).keys, KeysOf(kvs[..n]), kvs[n].0);
    }
  }

  /** Keys already present keep their positions, whatever is written after. */
  lemma {:induction false} PutAllKeepsPositions<K(!new), V>(m: OMap<K, V>, kvs: seq<(K, V)>)
    ensures m.keys <= PutAll(m, kvs).keys
    decreases |kvs|
  {
    if kvs != [] {
      PutAllKeepsPositions(m, kvs[..|kvs| - 1]);
    }
  }

  /** Writing a sequence of pairs keeps every key listed exactly once. */
  lemma {:induction false} PutAllKeepsValid<K(!new), V>(m: OMap<K, V>, kvs: seq<(K, V)>)
    requires Valid(m)
    ensures Valid(PutAll(m, kvs))
    decreases |kvs|
  {
    if kvs != [] {
      var n := |kvs| - 1;
      PutAllKeepsValid(m, kvs[..n]);
      PutKeepsValid(PutAll(m, kvs[..n]), kvs[n].0, kvs[n].1);
    }
  }
}

=== FILE: Php.dfy ===
/** The few PHP value coercions the export command relies on, written out
    because Dafny has none of them: `empty()`, the `(bool)` cast and the
    `(string)` cast of a possibly missing XML child or attribute. */
module Php {
  import opened Wrappers

  /** `empty($s)` for a string: PHP treats both "" and "0" as empty. */
  predicate EmptyString(s: string) {
    s == "" || s == "0"
  }

  /** `empty($v)` for a value that is a string or null. */
  predicate Empty(v: Option<string>) {
    v.None? || EmptyString(v.value)
  }

  /** `(string)$v` and `$v ?? ''`: a missing value reads as "". */
  function Text(v: Option<string>): (s: string)
    ensures v.Some? ==> s == v.value
    ensures v.None? ==> s == ""
  {
    v.GetOr("")
  }

  /** The value of a console option that may hold a boolean (its default), a
      string typed on the command line, or null (given without a value). */
  datatype Flag = NullFlag | BoolFlag(b: bool) | StringFlag(s: string)

  /** `(bool)$v`: null, false, "" and "0" are false, everything else is true. */
  function BoolCast(f: Flag): (r: bool)
    ensures r <==> (f == BoolFlag(true) || (f.StringFlag? && !EmptyString(f.s)))
  {
    match f
    case NullFlag => false
    case BoolFlag(b) => b
    case StringFlag(s) => !EmptyString(s)
  }

  /** For strings and null, `(bool)` and `empty()` are exact opposites. */
  lemma BoolCastIsNotEmpty(v: Option<string>)
    ensures BoolCast(if v.None? then NullFlag else StringFlag(v.value)) <==> !Empty(v)
  {
  }

  /** The flag is off only for "0" or "" on the command line; the word
      "false" is a non-empty string and switches it on. */
  lemma FlagSpellings()
    ensures BoolCast(BoolFlag(true))
    ensures !BoolCast(StringFlag("0")) && !BoolCast(StringFlag("")) && !BoolCast(NullFlag)
    ensures BoolCast(StringFlag("false")) && BoolCast(StringFlag("1"))
  {
  }
}

=== FILE: Wrappers.dfy ===
/** Option and Result, the failure-carrying values the model uses in place of
    PHP's null and uncaught errors. */
module Wrappers {

  datatype Option<+T> = None | Some(value: T) {

    /** The value, or `default` when there is none. */
    function GetOr(default: T): T {
      match this
      case Some(v) => v
      case None => default
    }
  }

  datatype Result<+R, +E> = Success(value: R) | Failure(error: E)
}

=== FILE: Xliff.dfy ===
/** What the export command reads out of one XLIFF file, once the XML has been
    loaded: the `source-language` / `target-language` attributes of the
    `<file>` element and the `<trans-unit>` elements in document order.
    Any of these may be missing; PHP then hands the command null, and the
    command's casts turn that into "". */
module Xliff {
  import opened Wrappers
  import Php

  /** One `<trans-unit>`: its `id` attribute and `<source>`/`<target>` texts. */
  datatype TransUnit = TransUnit(id: Option<string>, source: Option<string>, target: Option<string>)

  datatype Document = Document(
    sourceLanguage: Option<string>,
    targetLanguage: Option<string>,
    units: seq<TransUnit>)

  /** A discovered file: its real path and its content, or None when the
      content does not load as XML (the command then dies with an uncaught
      error). */
  datatype SourceFile = SourceFile(realPath: string, document: Option<Document>)

  /** A discovered file whose content loaded. */
  datatype ParsedFile = ParsedFile(realPath: string, document: Document)

  /** The language a file is filed under, and whether it is a translation. */
  datatype Resolution = Resolution(language: string, translated: bool)

  /** A file is a translation exactly when its target language is non-empty
      in PHP's sense; a translation is filed under its target language, any
      other file under its source language (missing attributes read as ""). */
  function Resolve(d: Document): (r: Resolution)
    ensures r.translated <==> !Php.Empty(d.targetLanguage)
    ensures r.translated ==> r.language == d.targetLanguage.value
    ensures !r.translated ==> r.language == Php.Text(d.sourceLanguage)
  {
    var sourceLanguage := Php.Text(d.sourceLanguage);
    var targetLanguage := Php.Text(d.targetLanguage);
    if !Php.EmptyString(targetLanguage) then Resolution(targetLanguage, true)
    else Resolution(sourceLanguage, false)
  }

  /** A translation is never filed under an empty language, and a file filed
      under anything other than its source language is a translation. */
  lemma ResolvedLanguage(d: Document)
    ensures Resolve(d).translated ==> !Php.EmptyString(Resolve(d).language)
    ensures Resolve(d).language != Php.Text(d.sourceLanguage) ==> Resolve(d).translated
  {
  }

  /** A `target-language="0"` attribute does not make a translation: PHP's
      `empty()` counts "0" as empty, so such a file is filed under its source
      language. */
  lemma ZeroTargetLanguageIsIgnored(d: Document)
    requires d.targetLanguage == Some("0")
    ensures !Resolve(d).translated
    ensures Resolve(d).language == Php.Text(d.sourceLanguage)
  {
  }

  /** The text stored for a unit: the target for a translation, the source
      otherwise; a missing element reads as "". */
  function UnitValue(u: TransUnit, translated: bool): (v: string)
    ensures translated && u.target.Some? ==> v == u.target.value
    ensures !translated && u.source.Some? ==> v == u.source.value
    ensures (if translated then u.target else u.source).None? ==> v == ""
  {
    if translated then Php.Text(u.target) else Php.Text(u.source)
  }
}
